=== FILE: README.md ===
# Ethiopia financial-inclusion record tables — a Dafny model

This project models the record-table logic of `src/data_explore.py`. The logic runs over two in-memory tables:

- the unified table of observations, events and other record types, where each row is a `Records.Record` whose nullable columns are `Option`s;
- the impact-link table, where each row is a `Records.ImpactLink`.

The reference-code list is a sequence of `Records.ReferenceCode` rows. Every operation is a pure function over these sequences, as it is in the source. The model writes out the pandas semantics the source relies on:

- Comparing a column with a literal is false for a missing cell.
- `isin` and `merge` match a missing value against a missing value.
- A boolean mask keeps the rows in table order.
- `Series.unique()` lists values in order of first appearance and keeps the missing marker.
- `merge` defaults to an inner join. Its rows come in the links' order, and each link is followed by its matching events in event order.
- `value_counts(dropna=False)` gives the missing marker a bucket of its own.
- `min` and `max` skip missing dates.
- `groupby` drops rows with a missing key and sorts keys in Python's string order.
- The `count` aggregation counts present cells. The `first` and `last` aggregations skip missing cells.

Modules:

- `Wrappers` holds `Option` and `Result`.
- `Seqs` holds mask selection (`Filter`) and `Unique`.
- `Records` holds the row types.
- `Validation` covers `validate_records` and `summarize_pillars`.
- `Linkage` covers `explore_impact_mechanics` and `analyze_impact_links`. These are one join that takes the merge suffixes as a parameter: `ExploreSuffixes` and `AnalyzeSuffixes`.
- `Counts` covers `get_record_counts`.
- `Coverage` covers `get_temporal_coverage`.
- `Indicators` covers `list_unique_indicators`.

`get_temporal_coverage` and `list_unique_indicators` are defined twice in the source file, with identical bodies (lines 92-105 and 106-119). Python keeps the second definition, and the model states each function once.

Two behaviours of the code that are easy to misread:

- `get_temporal_coverage` raises nothing: with no dated observation row it returns `(NaT, NaT)`, which the model gives as two missing ends.
- A missing `indicator_code` is flagged as invalid only because no reference row for `indicator_code` has a missing code. `isin` would accept a missing code if such a row existed. `Validation.MissingIndicatorCodeCounts` states this hypothesis.

## Model

| member | source | states |
|---|---|---|
| Validation.ValidateRecords | src/data_explore.py:50-67 | Both counts are at most the number of rows. The flagged codes are distinct. A code is flagged exactly when some row carries it and it is not a permitted `indicator_code` code. There are no more flagged codes than offending rows, and none exactly when the invalid-indicator count is 0. |
| Validation.FlaggedOrder | src/data_explore.py:66 | The flagged codes are listed in the order in which they first occur among the offending rows, as `unique()` returns them. |
| Validation.OffendingCodes | src/data_explore.py:57-61 | The codes of the rows the indicator mask selects are exactly the codes that some row carries and the reference list does not permit. |
| Validation.PillarRowContribution | src/data_explore.py:56-64 | A row adds one to `invalid_pillar_count` exactly when its pillar is present and not among the reference codes of field `pillar`. A row with a missing pillar never adds anything. |
| Validation.IndicatorRowContribution | src/data_explore.py:57-65 | A row adds one to `invalid_indicator_count` exactly when its code is not among the reference codes of field `indicator_code`. |
| Validation.MissingIndicatorCodeCounts | src/data_explore.py:57-66 | When the reference list gives every `indicator_code` row a real code, a row without a code adds one to `invalid_indicator_count`, and the missing marker is among the flagged codes. |
| Validation.PermittedCodes | src/data_explore.py:56-57 | When every reference row of the field gives a real code, the permitted set does not hold the missing marker. |
| Validation.SummarizePillars | src/data_explore.py:41-43 | The count is at most the number of rows, and 0 exactly when no event row lacks a pillar. |
| Validation.SummarizePillarsContribution | src/data_explore.py:41-43 | The `summarize_pillars` count goes up by one for each event row with a missing pillar. A non-event row never changes it. |
| Seqs.Filter | src/data_explore.py:60-61 | A mask selection is no longer than the table, and every selected row satisfies the mask. |
| Seqs.FilterMultiplicity | src/data_explore.py:60-61 | A mask selection keeps each row that satisfies the mask as often as it occurs and drops every other row. |
| Seqs.FilterAppend | src/data_explore.py:60-61 | The mask is applied row by row: selecting from stacked tables stacks the selections. |
| Seqs.FilterInsertCount | src/data_explore.py:60-64 | Inserting a row changes the size of a selection by one exactly when the row satisfies the mask. |
| Seqs.FilterEmpty | src/data_explore.py:60-61 | A selection is empty exactly when no row satisfies the mask. |
| Seqs.FilterSource | src/data_explore.py:60-61 | Every selected row is a row of the table. |
| Seqs.FilterOrder | src/data_explore.py:60-61 | A selection keeps table order: of two selected rows, the earlier comes from an earlier table row. |
| Seqs.FilterDropsRejected | src/data_explore.py:60-61 | A table with a row that fails the mask has a strictly shorter selection. |
| Seqs.Unique | src/data_explore.py:66 | `unique()` lists each value of the column exactly once, lists nothing else, is no longer than the column, and is empty exactly when the column is. |
| Seqs.UniqueFirstAppearanceOrder | src/data_explore.py:66 | `unique()` lists the values in the order of their first appearance in the column. |
| Linkage.ResolveImpacts | src/data_explore.py:20-39 | `explore_impact_mechanics`, and `analyze_impact_links` at lines 68-85, which is the same join with the suffixes `_target`/`_source_event` in place of `_link`/`_event`. A link table without a `parent_id` column fails with `MissingJoinKey`, as the `left_on='parent_id'` lookup raises `KeyError` (lines 34 and 81). Otherwise the merge succeeds exactly when the column labels can be disambiguated, fails with the label error when they cannot, and on success carries those labels. A merged row is exactly a link of the table paired with the projected columns of an event row whose `record_id` equals the link's `parent_id`, and the rows are the inner merge of the links with the projected event rows, so the order and multiplicity lemmas of `InnerMerge` apply to them. |
| Linkage.Events | src/data_explore.py:29 | The event projection holds the `record_id`, `indicator` and `notes` of exactly the rows whose `record_type` is `event`, and is no longer than the table. |
| Linkage.EventsAppend | src/data_explore.py:29 | Projecting stacked tables stacks the projections, so event rows keep their table order. |
| Linkage.EventsInsert | src/data_explore.py:29 | A row adds its projection at its own position exactly when it is an event. Every event row contributes one entry, duplicates included. |
| Linkage.EventsMultiplicity | src/data_explore.py:29 | A projected event occurs once per event row of the table that projects to it. |
| Linkage.EventsIgnoreNonEvents | src/data_explore.py:29 | Adding a row that is not an event leaves the event projection unchanged, so non-event rows are never matched. |
| Linkage.KeyMatches | src/data_explore.py:32-37 | The events a key matches are no more than the events. |
| Linkage.KeyMatchesCount | src/data_explore.py:32-37 | The events matched by a key are those carrying that key, each as often as it occurs. |
| Linkage.LinkRows | src/data_explore.py:32-37 | A link produces one row per matching event. |
| Linkage.LinkRowsOrder | src/data_explore.py:32-37 | A link's rows keep event order: of two rows, the earlier one comes from an earlier event row. |
| Linkage.LinkRowsMembers | src/data_explore.py:32-37 | The rows a link produces pair it with exactly the events carrying its `parent_id`. |
| Linkage.InnerMerge | src/data_explore.py:32-37 | The inner merge has at most one row per (link, event) pair. |
| Linkage.InnerMergeMembers | src/data_explore.py:32-37 | A row is in the merge exactly when its link is in the link table, its event is in the event projection, and the keys are equal. |
| Linkage.InnerMergeMultiplicity | src/data_explore.py:32-37 | A (link, event) pair with equal keys occurs as many times as the link occurs times as many times as the event occurs. A pair with different keys never occurs, so two links to the same event give two rows. |
| Linkage.MergeRowsPerEventRow | src/data_explore.py:29-37 | Counted against the table: a link with a matching key is paired with an event once per event row projecting to it, times the link's occurrences. |
| Linkage.InnerMergeAppend | src/data_explore.py:79-84 | The merge keeps the order of the links: merging stacked link tables stacks the merged rows. |
| Linkage.OrphanLinkDropped | src/data_explore.py:32-37 | A link whose `parent_id` is no event's `record_id` contributes no row, wherever it stands. |
| Linkage.UniqueKeyMatch | src/data_explore.py:32-37 | With unique event ids, a key matches at most one event, and exactly one when some event carries it. |
| Linkage.UniqueKeysMergeKeepsResolvableLinks | src/data_explore.py:79-84 | With unique event ids, the link column of the merge is the link table with its orphan links removed, in order. |
| Linkage.UniqueKeysMergeLength | src/data_explore.py:79-84 | With unique event ids, the merge is no longer than the link table, and strictly shorter when any link is an orphan. |
| Linkage.MergedColumns | src/data_explore.py:32-37 | Disjoint labels are concatenated unchanged. Overlapping labels with two empty suffixes fail. With overlapping labels and a non-empty suffix, it fails exactly when renaming one side creates a new duplicate label, and succeeds otherwise; it never reports a missing join key. On success each shared label gets the left suffix on the link side and the right suffix on the event side. Other labels are kept, and distinct labels stay distinct on each side. |
| Linkage.LinkColumnsMerge | src/data_explore.py:32-37 | For a link table labelled `record_id`, `parent_id`, `indicator`, `impact_magnitude` and any suffixes not both empty, the merge succeeds. `record_id` and `indicator` take the left suffix on the link side and the right suffix on the event side, and the other labels are kept. |
| Linkage.LinkTableResolves | src/data_explore.py:32-37 | The link table the code reads, which has a `parent_id` column, merges successfully for any suffixes not both empty. |
| Linkage.ExploreColumns | src/data_explore.py:32-37 | With `suffixes=('_link', '_event')` those labels become `record_id_link, parent_id, indicator_link, impact_magnitude, record_id_event, indicator_event, notes`. |
| Linkage.AnalyzeColumns | src/data_explore.py:79-84 | With `suffixes=('_target', '_source_event')` they become `record_id_target, parent_id, indicator_target, impact_magnitude, record_id_source_event, indicator_source_event, notes`. |
| Linkage.WorkedExample | src/data_explore.py:32-37 | Events 1, 2 and 3 with links to 1, 1 and 9 merge into exactly two rows, both for event 1. |
| Counts.ValueCounts | src/data_explore.py:90 | The table has a bucket for exactly the values occurring in the column, the missing marker included. Each bucket holds the number of occurrences, which is at least one. |
| Counts.CountsSumToRows | src/data_explore.py:90 | Summed over the distinct values, the bucket counts add up to the number of rows. |
| Counts.Column | src/data_explore.py:90 | A dimension's column has one cell per row. |
| Counts.DimensionNamesDistinct | src/data_explore.py:89-90 | The four dimensions have four different dictionary keys. |
| Counts.RecordCounts | src/data_explore.py:87-91 | There is one table per dimension: `record_type`, `pillar`, `source_type` and `confidence`. |
| Counts.RecordCountsBuckets | src/data_explore.py:89-90 | For each dimension, buckets exist exactly for the occurring values, the missing marker included. Each bucket equals its number of rows and is at least one, and the buckets sum to the number of rows. |
| Counts.PillarCountsExample | src/data_explore.py:90 | The pillars A, missing, A give the buckets {A: 2, missing: 1}. |
| Coverage.ObservationDates | src/data_explore.py:94-96 | The dates considered are exactly the present dates of observation rows. |
| Coverage.Earliest | src/data_explore.py:97 | `min` is missing exactly for no dates. Otherwise it is one of the dates and no date precedes it. |
| Coverage.Latest | src/data_explore.py:97 | `max` is missing exactly for no dates. Otherwise it is one of the dates and no date follows it. |
| Coverage.TemporalCoverage | src/data_explore.py:92-97 | Both ends are missing together, and exactly when no observation row has a date. Otherwise each end is a date of some observation row, every observation date lies between them, and start is at most end. |
| Coverage.NonObservationRowsIgnored | src/data_explore.py:94 | Adding a row that is not an observation never changes the coverage. |
| Indicators.LessTransitive | src/data_explore.py:101 | The key order of `groupby` (Python string order) is transitive. |
| Indicators.LessTotal | src/data_explore.py:101 | The key order of `groupby` is total, so any two distinct keys are ordered. |
| Indicators.Insert | src/data_explore.py:101 | Inserting a key into an ascending key list keeps it strictly ascending and adds exactly that key. |
| Indicators.SortedKeys | src/data_explore.py:101 | The group keys are strictly ascending and are exactly the given codes. |
| Indicators.PresentCodes | src/data_explore.py:101 | The candidate group keys are exactly the present indicator codes; rows with a missing code form no group. |
| Indicators.ListUniqueIndicators | src/data_explore.py:99-105 | There is one summary per distinct present `indicator_code` and no other, in strictly ascending code order, and each summary holds its group's aggregates. |
| Indicators.SummaryCodesDistinct | src/data_explore.py:101 | No indicator code is summarized twice. |
| Indicators.Group | src/data_explore.py:101 | A group is no larger than the table. |
| Indicators.Summarize | src/data_explore.py:101-105 | A group's summary carries its code and a `record_count` no larger than the table. |
| Indicators.GroupMembers | src/data_explore.py:101 | A group holds exactly the rows carrying its code. |
| Indicators.GroupInsert | src/data_explore.py:101 | A row enters exactly the group of its own code, at its table position. |
| Indicators.PresentCount | src/data_explore.py:102 | `count` is at most the number of cells, 0 exactly when all are missing, and full exactly when all are present. |
| Indicators.RecordCountContribution | src/data_explore.py:102 | `record_count` of a group goes up by one exactly for a row that carries the code and a present `record_id`. |
| Indicators.FirstPresent | src/data_explore.py:104 | `first` is missing exactly when every cell is. Otherwise it is a present cell with no present cell before it. |
| Indicators.LastPresent | src/data_explore.py:103 | `last` is missing exactly when every cell is. Otherwise it is a present cell with no present cell after it. |
| Indicators.LatestValueIsLastPresent | src/data_explore.py:103 | A row with the code and a value, followed by no row with the code and a value, supplies `latest_value`. |
| Indicators.UnitIsFirstPresent | src/data_explore.py:104 | A row with the code and a unit, preceded by no row with the code and a unit, supplies `unit`. |
| Indicators.MissingLatestValue | src/data_explore.py:103 | `latest_value` is missing exactly when no row with the code has a value. |
| Indicators.MissingUnit | src/data_explore.py:104 | `unit` is missing exactly when no row with the code has a unit. |

## Left out

- `load_fi_data` and `load_reference_codes` (src/data_explore.py:4-18, 46-48) read files and Excel sheets. The tables and the reference rows are parameters of every function instead.
- The `pd.to_datetime` parsing at src/data_explore.py:96 and the numeric coercion in dashboard/app.py are left out. Dates are already-parsed integers (`Records.Date`), and `value_numeric` and `impact_magnitude` are optional values that are never computed with.
- The dashboard (dashboard/app.py) is not part of this model: its UI, caching, charts and constant scenario strings.
- The message string `summarize_pillars` formats around its count (src/data_explore.py:44) is left out. `Validation.SummarizePillars` returns the count.
- The dictionary keys the join functions read are left out: `'unified_data'`/`'impact_links'` at src/data_explore.py:24-25 and `'data'`/`'impact'` at src/data_explore.py:73-74. The second pair does not match the keys `load_fi_data` produces. The model takes the two tables as arguments, and the two functions differ only in their suffixes.
- Counts.ValueCounts: a map has no order, so the descending-count order of the `value_counts` dictionary is not modelled.
- Linkage.ResolveImpacts: the code reads only `parent_id` from the link table, and pandas keeps every link column in the merged rows. The merged rows here carry four link fields (`record_id`, `parent_id`, `indicator`, `impact_magnitude`). The values of any other link column are dropped, and only its label survives in the link-column labels.
- Linkage.InnerMerge: the row order is that of pandas 2.2 and later. Earlier releases group rows by key and are not modelled.
- Validation.ValidateRecords: the docstring also names a `category` field, but the code never checks it, so the model does not either.
- Validation.ValidateRecords: codes are strings or missing. Reference codes of mixed types (a number against a string) are not modelled.
- Coverage.TemporalCoverage: it returns two missing ends instead of raising an error when no observation has a date, as the code does.

=== FILE: counts.dfy ===
/**
 * Frequency tables (`get_record_counts`): `value_counts(dropna=False)` of
 * four categorical columns, with the missing marker as a bucket of its own.
 */
module Counts {
  import opened Wrappers
  import opened Records
  import opened Seqs

  /**
   * `value_counts(dropna=False).to_dict()`: every value that occurs in the
   * column, a missing cell included, mapped to the number of its
   * occurrences. The dictionary's ordering (by decreasing count) is not part
   * of a map.
   */
  function ValueCounts<V(!new)>(column: seq<V>): (counts: map<V, nat>)
    ensures counts.Keys == set v | v in column
    ensures forall v :: v in counts ==> counts[v] == multiset(column)[v] && counts[v] >= 1
  {
    if column == [] then map[]
    else
      var init, last := column[..|column| - 1], column[|column| - 1];
      assert column == init + [last];
      var counts := ValueCounts(init);
      counts[last := if last in counts then counts[last] + 1 else 1]
  }

  /** The sum of `counts` over the listed keys. */
  function SumOver<V>(keys: seq<V>, counts: map<V, nat>): nat
    requires forall k :: k in keys ==> k in counts
  {
    if keys == [] then 0 else counts[keys[0]] + SumOver(keys[1..], counts)
  }

  /** Sums over stacked key lists add up. */
  lemma {:induction false} SumOverAppend<V>(a: seq<V>, b: seq<V>, counts: map<V, nat>)
    requires forall k :: k in a + b ==> k in counts
    ensures SumOver(a + b, counts) == SumOver(a, counts) + SumOver(b, counts)
  {
    if a == [] {
      assert a + b == b;
    } else {
      assert (a + b)[0] == a[0];
      assert (a + b)[1..] == a[1..] + b;
      SumOverAppend(a[1..], b, counts);
    }
  }

  /** Changing the count of a key listed once changes the sum by the same amount. */
  lemma {:induction false} SumOverUpdate<V>(keys: seq<V>, counts: map<V, nat>, x: V, n: nat)
    requires forall k :: k in keys ==> k in counts
    requires Distinct(keys)
    ensures SumOver(keys, counts[x := n]) == SumOver(keys, counts) + (if x in keys then n - counts[x] else 0)
  {
    if keys != [] {
      var tail := keys[1..];
      assert Distinct(tail);
      assert x == keys[0] ==> x !in tail by {
        forall i | 0 <= i < |tail| ensures keys[0] != tail[i] {
          assert tail[i] == keys[i + 1];
        }
      }
      SumOverUpdate(tail, counts, x, n);
    }
  }

  /**
   * The buckets cover the column: summed over the distinct values of the
   * column (each listed once), the counts add up to the number of rows.
   */
  lemma {:induction false} CountsSumToRows<V(!new)>(column: seq<V>)
    ensures SumOver(Unique(column), ValueCounts(column)) == |column|
  {
    if column != [] {
      var init, last := column[..|column| - 1], column[|column| - 1];
      assert column == init + [last];
      CountsSumToRows(init);
      var u, counts := Unique(init), ValueCounts(init);
      if last in u {
        SumOverUpdate(u, counts, last, counts[last] + 1);
      } else {
        SumOverUpdate(u, counts, last, 1);
        SumOverAppend(u, [last], ValueCounts(column));
        assert SumOver([last], ValueCounts(column)) == 1;
      }
    }
  }

  /** The four dimensions `get_record_counts` tabulates. */
  datatype Dimension = RecordType | Pillar | SourceType | Confidence {
    /** The column label, used as the dictionary key. */
    function Name(): string {
      match this
      case RecordType => "record_type"
      case Pillar => "pillar"
      case SourceType => "source_type"
      case Confidence => "confidence"
    }
  }

  /** Each dimension has its own dictionary key. */
  lemma DimensionNamesDistinct(d: Dimension, e: Dimension)
    ensures d.Name() == e.Name() ==> d == e
  {
    assert d.Name()[0] == match d case RecordType => 'r' case Pillar => 'p' case SourceType => 's' case Confidence => 'c';
    assert e.Name()[0] == match e case RecordType => 'r' case Pillar => 'p' case SourceType => 's' case Confidence => 'c';
  }

  /** One categorical column of the table. */
  function Column(records: seq<Record>, d: Dimension): (column: seq<Option<string>>)
    ensures |column| == |records|
  {
    seq(|records|, i requires 0 <= i < |records| =>
      match d
      case RecordType => records[i].recordType
      case Pillar => records[i].pillar
      case SourceType => records[i].sourceType
      case Confidence => records[i].confidence)
  }

  /** The dimensions `get_record_counts` tabulates. */
  const Dimensions: set<Dimension> := {RecordType, Pillar, SourceType, Confidence}

  /**
   * `get_record_counts`: the frequency table of each dimension, keyed by the
   * dimension (whose `Name()` is the dictionary key).
   */
  function RecordCounts(records: seq<Record>): (tables: map<Dimension, map<Option<string>, nat>>)
    ensures tables.Keys == Dimensions
  {
    map d | d in Dimensions :: ValueCounts(Column(records, d))
  }

  /**
   * For every dimension, its table has a bucket for a value (the missing
   * marker included) exactly when some row carries it, each bucket holds the
   * number of such rows and at least one, and the buckets add up to the
   * number of rows.
   */
  lemma RecordCountsBuckets(records: seq<Record>, d: Dimension)
    ensures d in RecordCounts(records)
    ensures var table := RecordCounts(records)[d];
      (forall v :: v in table <==> v in Column(records, d)) &&
      (forall v :: v in table ==> table[v] == multiset(Column(records, d))[v] && table[v] >= 1) &&
      SumOver(Unique(Column(records, d)), table) == |records|
  {
    assert d in Dimensions;
    CountsSumToRows(Column(records, d));
  }

  /**
   * The worked example: pillars A, missing, A give the buckets
   * {A: 2, missing: 1}.
   */
  lemma PillarCountsExample()
    ensures ValueCounts([Some("A"), None, Some("A")]) == map[Some("A") := 2, None := 1]
  {
    assert [Some("A"), None, Some("A")][..2] == [Some("A"), None];
    assert [Some("A"), None][..1] == [Some("A")];
  }
}

=== FILE: coverage.dfy ===
/**
 * Temporal coverage (`get_temporal_coverage`): the earliest and latest
 * observation date, taken over observation rows only. Dates are already
 * parsed; a missing date is skipped by `min`/`max` like pandas' NaT.
 */
module Coverage {
  import opened Wrappers
  import opened Records

  /** The present dates of the observation rows, in table order. */
  function ObservationDates(records: seq<Record>): (dates: seq<Date>)
    ensures |dates| <= |records|
    ensures forall d :: d in dates <==>
      exists i :: 0 <= i < |records| && IsObservation(records[i]) && records[i].observationDate == Some(d)
  {
    if records == [] then []
    else
      var r := records[0];
      assert forall i :: 0 < i < |records| ==> records[i] == records[1..][i - 1];
      (if IsObservation(r) && r.observationDate.Some? then [r.observationDate.value] else []) + ObservationDates(records[1..])
  }

  /** `Series.min()`: the smallest date, or missing for an empty series. */
  function Earliest(dates: seq<Date>): (m: Option<Date>)
    ensures m.None? <==> dates == []
    ensures m.Some? ==> m.value in dates && forall d :: d in dates ==> m.value <= d
  {
    if dates == [] then None
    else
      assert dates == [dates[0]] + dates[1..];
      match Earliest(dates[1..])
      case None => Some(dates[0])
      case Some(m) => Some(if dates[0] <= m then dates[0] else m)
  }

  /** `Series.max()`: the largest date, or missing for an empty series. */
  function Latest(dates: seq<Date>): (m: Option<Date>)
    ensures m.None? <==> dates == []
    ensures m.Some? ==> m.value in dates && forall d :: d in dates ==> d <= m.value
  {
    if dates == [] then None
    else
      assert dates == [dates[0]] + dates[1..];
      match Latest(dates[1..])
      case None => Some(dates[0])
      case Some(m) => Some(if dates[0] >= m then dates[0] else m)
  }

  /** The pair `get_temporal_coverage` returns; both ends are missing together. */
  datatype Span = Span(start: Option<Date>, end: Option<Date>)

  /**
   * `get_temporal_coverage`: the earliest and the latest date among the
   * observation rows. Both ends are missing (no error is raised) exactly
   * when no observation row has a date; otherwise the start is a date of
   * some observation row, no observation date precedes it, the end is one
   * too, none follows it, and the start does not follow the end.
   */
  function TemporalCoverage(records: seq<Record>): (span: Span)
    ensures span.start.None? <==> span.end.None?
    ensures span.start.None? <==> forall i :: 0 <= i < |records| && IsObservation(records[i]) ==> records[i].observationDate.None?
    ensures span.start.Some? ==> span.start.value <= span.end.value
    ensures span.start.Some? ==>
      (exists i :: 0 <= i < |records| && IsObservation(records[i]) && records[i].observationDate == span.start) &&
      forall i :: 0 <= i < |records| && IsObservation(records[i]) && records[i].observationDate.Some? ==>
        span.start.value <= records[i].observationDate.value <= span.end.value
    ensures span.end.Some? ==>
      exists i :: 0 <= i < |records| && IsObservation(records[i]) && records[i].observationDate == span.end
  {
    var dates := ObservationDates(records);
    assert forall i :: 0 <= i < |records| && IsObservation(records[i]) && records[i].observationDate.Some? ==>
      records[i].observationDate.value in dates;
    Span(Earliest(dates), Latest(dates))
  }

  /** Rows other than observations never move the coverage. */
  lemma NonObservationRowsIgnored(pre: seq<Record>, r: Record, post: seq<Record>)
    requires !IsObservation(r)
    ensures TemporalCoverage(pre + [r] + post) == TemporalCoverage(pre + post)
  {
    ObservationDatesSkip(pre, r, post);
  }

  /** A row that is not an observation adds no date. */
  lemma {:induction false} ObservationDatesSkip(pre: seq<Record>, r: Record, post: seq<Record>)
    requires !IsObservation(r)
    ensures ObservationDates(pre + [r] + post) == ObservationDates(pre + post)
  {
    if pre == [] {
      assert pre + [r] + post == [r] + post && pre + post == post;
      assert ([r] + post)[0] == r && ([r] + post)[1..] == post;
    } else {
      assert (pre + [r] + post)[1..] == pre[1..] + [r] + post;
      assert (pre + post)[1..] == pre[1..] + post;
      ObservationDatesSkip(pre[1..], r, post);
    }
  }
}

=== FILE: indicators.dfy ===
/**
 * The per-indicator summary (`list_unique_indicators`):
 * `groupby('indicator_code').agg(record_count=('record_id', 'count'),
 * latest_value=('value_numeric', 'last'), unit=('unit', 'first'))` with
 * pandas' defaults: rows with a missing code are dropped, groups come out
 * in ascending key order, `count` counts present cells, and `first` and
 * `last` skip missing cells.
 */
module Indicators {
  import opened Wrappers
  import opened Records
  import Seqs

  // ---- string order ----

  /** Python's `a < b` on strings: lexicographic by code point, a proper prefix first. */
  predicate Less(a: string, b: string) {
    if |a| == 0 then |b| != 0
    else if |b| == 0 then false
    else if a[0] != b[0] then a[0] < b[0]
    else Less(a[1..], b[1..])
  }

  lemma {:induction false} LessIrreflexive(a: string)
    ensures !Less(a, a)
  {
    if |a| != 0 {
      LessIrreflexive(a[1..]);
    }
  }

  lemma {:induction false} LessTransitive(a: string, b: string, c: string)
    requires Less(a, b) && Less(b, c)
    ensures Less(a, c)
  {
    if |a| != 0 && |b| != 0 && |c| != 0 && a[0] == b[0] && b[0] == c[0] {
      LessTransitive(a[1..], b[1..], c[1..]);
    }
  }

  lemma {:induction false} LessTotal(a: string, b: string)
    ensures a == b || Less(a, b) || Less(b, a)
  {
    if |a| != 0 && |b| != 0 && a[0] == b[0] {
      LessTotal(a[1..], b[1..]);
      if a[1..] == b[1..] {
        assert a == [a[0]] + a[1..] && b == [b[0]] + b[1..];
      }
    }
  }

  /** Strictly ascending, hence free of duplicates. */
  predicate StrictlySorted(keys: seq<string>) {
    forall i, j :: 0 <= i < j < |keys| ==> Less(keys[i], keys[j])
  }

  /** `key` put into its place in an ascending key list, unless it is already there. */
  function Insert(key: string, keys: seq<string>): (r: seq<string>)
    requires StrictlySorted(keys)
    ensures StrictlySorted(r)
    ensures forall k :: k in r <==> k == key || k in keys
  {
    if keys == [] then [key]
    else if key == keys[0] then keys
    else if Less(key, keys[0]) then
      assert forall j :: 0 <= j < |keys| ==> Less(key, keys[j]) by {
        forall j | 0 < j < |keys| ensures Less(key, keys[j]) {
          LessTransitive(key, keys[0], keys[j]);
        }
      }
      [key] + keys
    else
      LessTotal(key, keys[0]);
      var rest := Insert(key, keys[1..]);
      assert forall k :: k in keys <==> k == keys[0] || k in keys[1..] by {
        assert keys == [keys[0]] + keys[1..];
      }
      assert forall j :: 0 <= j < |rest| ==> Less(keys[0], rest[j]) by {
        forall j | 0 <= j < |rest| ensures Less(keys[0], rest[j]) {
          if rest[j] != key {
            assert rest[j] in rest;
            assert rest[j] in keys[1..];
            var m :| 0 <= m < |keys[1..]| && keys[1..][m] == rest[j];
            assert keys[m + 1] == rest[j];
          }
        }
      }
      [keys[0]] + rest
  }

  /** The distinct keys of `codes` in ascending order, as `groupby` (with `sort=True`) orders its groups. */
  function SortedKeys(codes: seq<string>): (keys: seq<string>)
    ensures StrictlySorted(keys)
    ensures forall k :: k in keys <==> k in codes
  {
    if codes == [] then []
    else
      var init, last := codes[..|codes| - 1], codes[|codes| - 1];
      assert codes == init + [last];
      Insert(last, SortedKeys(init))
  }

  // ---- grouping and aggregation ----

  /** The present indicator codes of the table, in row order; rows without one form no group. */
  function PresentCodes(records: seq<Record>): (codes: seq<string>)
    ensures forall c :: c in codes <==> exists i :: 0 <= i < |records| && records[i].indicatorCode == Some(c)
  {
    if records == [] then []
    else
      assert forall i :: 0 < i < |records| ==> records[i] == records[1..][i - 1];
      (if records[0].indicatorCode.Some? then [records[0].indicatorCode.value] else []) + PresentCodes(records[1..])
  }

  /** The group key test: the row's `indicator_code` is `code`. */
  function HasCode(code: string): Record -> bool {
    (r: Record) => r.indicatorCode == Some(code)
  }

  /** The rows of the group with key `code`, in table order. */
  function Group(records: seq<Record>, code: string): (rows: seq<Record>)
    ensures |rows| <= |records|
  {
    Seqs.Filter(records, HasCode(code))
  }

  /** The `count` aggregation: the number of present cells. */
  function PresentCount<T>(cells: seq<Option<T>>): (n: nat)
    ensures n <= |cells|
    ensures n == 0 <==> forall i :: 0 <= i < |cells| ==> cells[i].None?
    ensures n == |cells| <==> forall i :: 0 <= i < |cells| ==> cells[i].Some?
  {
    if cells == [] then 0
    else
      assert forall i :: 0 < i < |cells| ==> cells[i] == cells[1..][i - 1];
      (if cells[0].Some? then 1 else 0) + PresentCount(cells[1..])
  }

  /** The `first` aggregation: the first present cell, missing when there is none. */
  function FirstPresent<T>(cells: seq<Option<T>>): (r: Option<T>)
    ensures r.None? <==> forall i :: 0 <= i < |cells| ==> cells[i].None?
    ensures r.Some? ==> exists i :: 0 <= i < |cells| && cells[i] == r && forall j :: 0 <= j < i ==> cells[j].None?
  {
    if cells == [] then None
    else if cells[0].Some? then cells[0]
    else
      var r := FirstPresent(cells[1..]);
      assert forall i :: 0 < i < |cells| ==> cells[i] == cells[1..][i - 1];
      assert r.Some? ==> exists i :: 0 <= i < |cells| && cells[i] == r && forall j :: 0 <= j < i ==> cells[j].None? by {
        if r.Some? {
          var i :| 0 <= i < |cells[1..]| && cells[1..][i] == r && forall j :: 0 <= j < i ==> cells[1..][j].None?;
          assert cells[i + 1] == r;
          assert forall j :: 0 <= j < i + 1 ==> cells[j].None? by {
            forall j | 0 < j < i + 1 ensures cells[j].None? {
              assert cells[j] == cells[1..][j - 1];
            }
          }
        }
      }
      r
  }

  /** The `last` aggregation: the last present cell, missing when there is none. */
  function LastPresent<T>(cells: seq<Option<T>>): (r: Option<T>)
    ensures r.None? <==> forall i :: 0 <= i < |cells| ==> cells[i].None?
    ensures r.Some? ==> exists i :: 0 <= i < |cells| && cells[i] == r && forall j :: i < j < |cells| ==> cells[j].None?
  {
    if cells == [] then None
    else if cells[|cells| - 1].Some? then cells[|cells| - 1]
    else
      var n, init := |cells|, cells[..|cells| - 1];
      var r := LastPresent(init);
      assert r.None? <==> forall i :: 0 <= i < n ==> cells[i].None? by {
        assert forall i :: 0 <= i < n - 1 ==> cells[i] == init[i];
      }
      assert r.Some? ==> exists i :: 0 <= i < n && cells[i] == r && forall j :: i < j < n ==> cells[j].None? by {
        if r.Some? {
          var i :| 0 <= i < |init| && init[i] == r && forall j :: i < j < |init| ==> init[j].None?;
          assert cells[i] == r;
          forall j | i < j < n ensures cells[j].None? {
            if j < n - 1 { assert cells[j] == init[j]; }
          }
        }
      }
      r
  }

  /** One row of the summary table, indexed by its indicator code. */
  datatype IndicatorSummary = IndicatorSummary(
    indicatorCode: string,
    recordCount: nat,
    latestValue: Option<real>,
    unit: Option<string>)

  /** The `record_id` column of some rows. */
  function Ids(rows: seq<Record>): (ids: seq<Option<string>>)
    ensures |ids| == |rows|
  {
    seq(|rows|, i requires 0 <= i < |rows| => rows[i].recordId)
  }

  /** The `value_numeric` column of some rows. */
  function Values(rows: seq<Record>): (values: seq<Option<real>>)
    ensures |values| == |rows|
  {
    seq(|rows|, i requires 0 <= i < |rows| => rows[i].valueNumeric)
  }

  /** The `unit` column of some rows. */
  function Units(rows: seq<Record>): (units: seq<Option<string>>)
    ensures |units| == |rows|
  {
    seq(|rows|, i requires 0 <= i < |rows| => rows[i].unit)
  }

  /** The aggregates of one group. */
  function Summarize(records: seq<Record>, code: string): (summary: IndicatorSummary)
    ensures summary.indicatorCode == code && summary.recordCount <= |records|
  {
    var rows := Group(records, code);
    IndicatorSummary(code, PresentCount(Ids(rows)), LastPresent(Values(rows)), FirstPresent(Units(rows)))
  }

  /**
   * `list_unique_indicators`: one summary per distinct present indicator
   * code, in ascending code order, each holding its group's aggregates.
   */
  function ListUniqueIndicators(records: seq<Record>): (summary: seq<IndicatorSummary>)
    ensures forall i, j :: 0 <= i < j < |summary| ==> Less(summary[i].indicatorCode, summary[j].indicatorCode)
    ensures forall c :: (exists i :: 0 <= i < |summary| && summary[i].indicatorCode == c) <==>
      exists i :: 0 <= i < |records| && records[i].indicatorCode == Some(c)
    ensures forall i :: 0 <= i < |summary| ==> summary[i] == Summarize(records, summary[i].indicatorCode)
  {
    var keys := SortedKeys(PresentCodes(records));
    var summary := seq(|keys|, k requires 0 <= k < |keys| => Summarize(records, keys[k]));
    assert forall c :: (exists i :: 0 <= i < |summary| && summary[i].indicatorCode == c) <==> c in keys by {
      forall c ensures (exists i :: 0 <= i < |summary| && summary[i].indicatorCode == c) <==> c in keys {
        if c in keys {
          var i :| 0 <= i < |keys| && keys[i] == c;
          assert summary[i].indicatorCode == c;
        }
      }
    }
    summary
  }

  /** No indicator code is summarized twice. */
  lemma SummaryCodesDistinct(records: seq<Record>)
    ensures forall i, j :: 0 <= i < j < |ListUniqueIndicators(records)| ==>
      ListUniqueIndicators(records)[i].indicatorCode != ListUniqueIndicators(records)[j].indicatorCode
  {
    var summary := ListUniqueIndicators(records);
    forall i, j | 0 <= i < j < |summary| ensures summary[i].indicatorCode != summary[j].indicatorCode {
      LessIrreflexive(summary[i].indicatorCode);
    }
  }

  // ---- what the aggregates mean ----

  /** Grouping commutes with stacking tables: each group keeps table order. */
  lemma GroupAppend(a: seq<Record>, b: seq<Record>, code: string)
    ensures Group(a + b, code) == Group(a, code) + Group(b, code)
  {
    Seqs.FilterAppend(a, b, HasCode(code));
  }

  lemma {:induction false} PresentCountAppend<T>(a: seq<Option<T>>, b: seq<Option<T>>)
    ensures PresentCount(a + b) == PresentCount(a) + PresentCount(b)
  {
    if a == [] {
      assert a + b == b;
    } else {
      assert (a + b)[0] == a[0];
      assert (a + b)[1..] == a[1..] + b;
      PresentCountAppend(a[1..], b);
    }
  }

  /** The first present cell of stacked cells comes from the top part when it has one. */
  lemma {:induction false} FirstPresentAppend<T>(a: seq<Option<T>>, b: seq<Option<T>>)
    ensures FirstPresent(a + b) == if FirstPresent(a).Some? then FirstPresent(a) else FirstPresent(b)
  {
    if a == [] {
      assert a + b == b;
    } else {
      assert (a + b)[0] == a[0];
      assert (a + b)[1..] == a[1..] + b;
      FirstPresentAppend(a[1..], b);
    }
  }

  /** The last present cell of stacked cells comes from the bottom part when it has one. */
  lemma {:induction false} LastPresentAppend<T>(a: seq<Option<T>>, b: seq<Option<T>>)
    ensures LastPresent(a + b) == if LastPresent(b).Some? then LastPresent(b) else LastPresent(a)
  {
    if b == [] {
      assert a + b == a;
    } else {
      var ab := a + b;
      assert ab[|ab| - 1] == b[|b| - 1];
      if b[|b| - 1].None? {
        assert ab[..|ab| - 1] == a + b[..|b| - 1];
        LastPresentAppend(a, b[..|b| - 1]);
      }
    }
  }

  /** The group holds exactly the rows that carry its code. */
  lemma GroupMembers(records: seq<Record>, code: string)
    ensures forall r :: r in Group(records, code) <==> r in records && r.indicatorCode == Some(code)
  {
    forall r ensures r in Group(records, code) <==> r in records && r.indicatorCode == Some(code) {
      Seqs.FilterMultiplicity(records, HasCode(code), r);
    }
  }

  /** A row enters exactly the group of its own code. */
  lemma GroupInsert(pre: seq<Record>, r: Record, post: seq<Record>, code: string)
    ensures Group(pre + [r] + post, code) == Group(pre, code) + (if r.indicatorCode == Some(code) then [r] else []) + Group(post, code)
    ensures Group(pre + post, code) == Group(pre, code) + Group(post, code)
  {
    var mid := if r.indicatorCode == Some(code) then [r] else [];
    assert Group([r], code) == mid by {
      assert [r][1..] == [];
    }
    assert Group(pre + [r], code) == Group(pre, code) + mid by {
      GroupAppend(pre, [r], code);
    }
    GroupAppend(pre + [r], post, code);
    GroupAppend(pre, post, code);
  }

  lemma ColumnsAppend(a: seq<Record>, b: seq<Record>)
    ensures Ids(a + b) == Ids(a) + Ids(b)
    ensures Values(a + b) == Values(a) + Values(b)
    ensures Units(a + b) == Units(a) + Units(b)
  {
  }

  /**
   * `record_count` counts the rows of the group whose `record_id` is
   * present: a row adds one exactly when it carries the code and an id.
   */
  lemma RecordCountContribution(pre: seq<Record>, r: Record, post: seq<Record>, code: string)
    ensures Summarize(pre + [r] + post, code).recordCount
         == Summarize(pre + post, code).recordCount + (if r.indicatorCode == Some(code) && r.recordId.Some? then 1 else 0)
  {
    GroupInsert(pre, r, post, code);
    var g1, g2, g3 := Group(pre, code), (if r.indicatorCode == Some(code) then [r] else []), Group(post, code);
    ColumnsAppend(g1 + g2, g3);
    ColumnsAppend(g1, g2);
    ColumnsAppend(g1, g3);
    PresentCountAppend(Ids(g1) + Ids(g2), Ids(g3));
    PresentCountAppend(Ids(g1), Ids(g2));
    PresentCountAppend(Ids(g1), Ids(g3));
    assert PresentCount(Ids(g2)) == if r.indicatorCode == Some(code) && r.recordId.Some? then 1 else 0;
  }

  /** No cell of the `value_numeric` column of these rows is present. */
  lemma NoValues(rows: seq<Record>)
    requires forall x :: x in rows ==> x.valueNumeric.None?
    ensures LastPresent(Values(rows)).None?
  {
    forall i | 0 <= i < |rows| ensures Values(rows)[i].None? {
      assert rows[i] in rows;
    }
  }

  /** No cell of the `unit` column of these rows is present. */
  lemma NoUnits(rows: seq<Record>)
    requires forall x :: x in rows ==> x.unit.None?
    ensures FirstPresent(Units(rows)).None?
  {
    forall i | 0 <= i < |rows| ensures Units(rows)[i].None? {
      assert rows[i] in rows;
    }
  }

  /**
   * `latest_value` is the value of the last row of the group whose value is
   * present: a row with the code and a value, followed by no such row,
   * supplies it.
   */
  lemma LatestValueIsLastPresent(pre: seq<Record>, r: Record, post: seq<Record>, code: string)
    requires r.indicatorCode == Some(code) && r.valueNumeric.Some?
    requires forall x :: x in post && x.indicatorCode == Some(code) ==> x.valueNumeric.None?
    ensures Summarize(pre + [r] + post, code).latestValue == r.valueNumeric
  {
    var g1, g3 := Group(pre, code), Group(post, code);
    var g := Group(pre + [r] + post, code);
    assert g == (g1 + [r]) + g3 by {
      GroupInsert(pre, r, post, code);
    }
    var v1, v3 := Values(g1), Values(g3);
    assert Values(g) == (v1 + [r.valueNumeric]) + v3 by {
      ColumnsAppend(g1 + [r], g3);
      ColumnsAppend(g1, [r]);
      assert Values([r]) == [r.valueNumeric];
    }
    assert LastPresent(v3).None? by {
      GroupMembers(post, code);
      NoValues(g3);
    }
    assert LastPresent(v1 + [r.valueNumeric]) == r.valueNumeric by {
      LastPresentAppend(v1, [r.valueNumeric]);
    }
    LastPresentAppend(v1 + [r.valueNumeric], v3);
  }

  /**
   * `unit` is the unit of the first row of the group whose unit is present:
   * a row with the code and a unit, preceded by no such row, supplies it.
   */
  lemma UnitIsFirstPresent(pre: seq<Record>, r: Record, post: seq<Record>, code: string)
    requires r.indicatorCode == Some(code) && r.unit.Some?
    requires forall x :: x in pre && x.indicatorCode == Some(code) ==> x.unit.None?
    ensures Summarize(pre + [r] + post, code).unit == r.unit
  {
    var g1, g3 := Group(pre, code), Group(post, code);
    var g := Group(pre + [r] + post, code);
    assert g == g1 + ([r] + g3) by {
      GroupInsert(pre, r, post, code);
      assert g1 + [r] + g3 == g1 + ([r] + g3);
    }
    var u1, u3 := Units(g1), Units(g3);
    assert Units(g) == u1 + ([r.unit] + u3) by {
      ColumnsAppend(g1, [r] + g3);
      ColumnsAppend([r], g3);
      assert Units([r]) == [r.unit];
    }
    assert FirstPresent(u1).None? by {
      GroupMembers(pre, code);
      NoUnits(g1);
    }
    assert FirstPresent([r.unit] + u3) == r.unit by {
      FirstPresentAppend([r.unit], u3);
    }
    FirstPresentAppend(u1, [r.unit] + u3);
  }

  /** A property holds of every row of a group exactly when it holds of every row with that code. */
  lemma GroupAll(records: seq<Record>, code: string, p: Record -> bool)
    ensures (forall k :: 0 <= k < |Group(records, code)| ==> p(Group(records, code)[k])) <==>
      forall i :: 0 <= i < |records| && records[i].indicatorCode == Some(code) ==> p(records[i])
  {
    var g := Group(records, code);
    GroupMembers(records, code);
    if forall k :: 0 <= k < |g| ==> p(g[k]) {
      forall i | 0 <= i < |records| && records[i].indicatorCode == Some(code) ensures p(records[i]) {
        assert records[i] in g;
        var k :| 0 <= k < |g| && g[k] == records[i];
      }
    }
    if forall i :: 0 <= i < |records| && records[i].indicatorCode == Some(code) ==> p(records[i]) {
      forall k | 0 <= k < |g| ensures p(g[k]) {
        assert g[k] in records;
        var i :| 0 <= i < |records| && records[i] == g[k];
      }
    }
  }

  /** A group's `latest_value` is missing exactly when every row with that code lacks a value. */
  lemma MissingLatestValue(records: seq<Record>, code: string)
    ensures Summarize(records, code).latestValue.None? <==>
      forall i :: 0 <= i < |records| && records[i].indicatorCode == Some(code) ==> records[i].valueNumeric.None?
  {
    var g := Group(records, code);
    GroupAll(records, code, (x: Record) => x.valueNumeric.None?);
    assert forall k :: 0 <= k < |g| ==> Values(g)[k] == g[k].valueNumeric;
  }

  /** A group's `unit` is missing exactly when every row with that code lacks a unit. */
  lemma MissingUnit(records: seq<Record>, code: string)
    ensures Summarize(records, code).unit.None? <==>
      forall i :: 0 <= i < |records| && records[i].indicatorCode == Some(code) ==> records[i].unit.None?
  {
    var g := Group(records, code);
    GroupAll(records, code, (x: Record) => x.unit.None?);
    assert forall k :: 0 <= k < |g| ==> Units(g)[k] == g[k].unit;
  }
}

=== FILE: linkage.dfy ===
/**
 * Event -> impact-link resolution (`explore_impact_mechanics`,
 * `analyze_impact_links`): the event rows of the unified table, cut down to
 * `record_id`, `indicator` and `notes`, are inner-joined to the impact links
 * on `parent_id == record_id` with pandas' `merge` defaults.
 */
module Linkage {
  import opened Wrappers
  import opened Records
  import opened Seqs

  /** The three columns kept from an event row: `events[['record_id', 'indicator', 'notes']]`. */
  datatype EventColumns = EventColumns(recordId: Option<string>, indicator: Option<string>, notes: Option<string>)

  /** One row of the merged table: an impact link next to the event it refers to. */
  datatype JoinedRow = JoinedRow(link: ImpactLink, event: EventColumns)

  /** The three kept columns of one row. */
  function Project(r: Record): EventColumns {
    EventColumns(r.recordId, r.indicator, r.notes)
  }

  /** The projection of the event rows of `records`, in table order. */
  function Events(records: seq<Record>): (events: seq<EventColumns>)
    ensures |events| <= |records|
    ensures forall e :: e in events <==>
      exists i :: 0 <= i < |records| && IsEvent(records[i]) && e == Project(records[i])
  {
    if records == [] then []
    else
      var r := records[0];
      var rest := Events(records[1..]);
      assert forall i :: 0 < i < |records| ==> records[i] == records[1..][i - 1];
      (if IsEvent(r) then [Project(r)] else []) + rest
  }

  /**
   * The event rows whose `record_id` equals `key`, in order. Keys are
   * compared as pandas' merge compares them: a missing key matches a
   * missing key.
   */
  function KeyMatches(events: seq<EventColumns>, key: Option<string>): (matched: seq<EventColumns>)
    ensures |matched| <= |events|
  {
    Filter(events, HasKey(key))
  }

  /** The key test of the join. */
  function HasKey(key: Option<string>): EventColumns -> bool {
    (e: EventColumns) => e.recordId == key
  }

  /** `a` occurs in `events` at an earlier position than `b`. */
  predicate OccurBefore(events: seq<EventColumns>, a: EventColumns, b: EventColumns) {
    exists i, i' :: 0 <= i < i' < |events| && events[i] == a && events[i'] == b
  }

  /** A link's rows keep event order: two rows come from events in the same order. */
  lemma LinkRowsOrder(link: ImpactLink, events: seq<EventColumns>)
    ensures forall k, k' :: 0 <= k < k' < |LinkRows(link, events)| ==>
      OccurBefore(events, LinkRows(link, events)[k].event, LinkRows(link, events)[k'].event)
  {
    var rows, matched := LinkRows(link, events), KeyMatches(events, link.parentId);
    forall k, k' | 0 <= k < k' < |rows| ensures OccurBefore(events, rows[k].event, rows[k'].event) {
      assert rows[k].event == matched[k] && rows[k'].event == matched[k'];
      FilterOrder(events, HasKey(link.parentId), k, k');
    }
  }

  /** Each event with the key is matched as often as it occurs, and no other event is. */
  lemma KeyMatchesCount(events: seq<EventColumns>, key: Option<string>, e: EventColumns)
    ensures multiset(KeyMatches(events, key))[e] == if e.recordId == key then multiset(events)[e] else 0
  {
    FilterMultiplicity(events, HasKey(key), e);
  }

  /** The events a link's rows pair it with are exactly the events carrying its key. */
  lemma LinkRowsMembers(link: ImpactLink, events: seq<EventColumns>)
    ensures forall row :: row in LinkRows(link, events) <==>
      row.link == link && row.event in events && row.event.recordId == link.parentId
  {
    var head, matched := LinkRows(link, events), KeyMatches(events, link.parentId);
    forall row ensures row in head <==> row.link == link && row.event in events && row.event.recordId == link.parentId {
      KeyMatchesCount(events, link.parentId, row.event);
      if row in head {
        var k :| 0 <= k < |head| && head[k] == row;
        assert matched[k] in multiset(matched);
      }
      if row.link == link && row.event in events && row.event.recordId == link.parentId {
        assert row.event in multiset(events);
        assert row.event in multiset(matched);
        var k :| 0 <= k < |matched| && matched[k] == row.event;
        assert head[k] == row;
      }
    }
  }

  /** The merged rows one impact link produces: one per matching event, in event order. */
  function LinkRows(link: ImpactLink, events: seq<EventColumns>): (rows: seq<JoinedRow>)
    ensures |rows| == |KeyMatches(events, link.parentId)|
  {
    var matched := KeyMatches(events, link.parentId);
    seq(|matched|, k requires 0 <= k < |matched| => JoinedRow(link, matched[k]))
  }

  /**
   * `links.merge(events, left_on='parent_id', right_on='record_id')` with
   * the default `how='inner'`: the links are taken in their own order and
   * each is followed by its matching events.
   */
  function InnerMerge(links: seq<ImpactLink>, events: seq<EventColumns>): (rows: seq<JoinedRow>)
    ensures |rows| <= |links| * |events|
  {
    if links == [] then []
    else
      var rest := InnerMerge(links[1..], events);
      assert |links| * |events| == |events| + (|links| - 1) * |events|;
      LinkRows(links[0], events) + rest
  }

  /** A row is merged exactly when it pairs a link with an event carrying the link's key. */
  lemma {:induction false} InnerMergeMembers(links: seq<ImpactLink>, events: seq<EventColumns>)
    ensures forall row :: row in InnerMerge(links, events) <==>
      row.link in links && row.event in events && row.event.recordId == row.link.parentId
  {
    if links != [] {
      InnerMergeMembers(links[1..], events);
      LinkRowsMembers(links[0], events);
      assert links == [links[0]] + links[1..];
    }
  }

  /** The merge keeps the order of the links: merging stacked link tables stacks the results. */
  lemma {:induction false} InnerMergeAppend(a: seq<ImpactLink>, b: seq<ImpactLink>, events: seq<EventColumns>)
    ensures InnerMerge(a + b, events) == InnerMerge(a, events) + InnerMerge(b, events)
  {
    if a == [] {
      assert a + b == b;
    } else {
      assert (a + b)[0] == a[0];
      assert (a + b)[1..] == a[1..] + b;
      InnerMergeAppend(a[1..], b, events);
    }
  }

  /**
   * One row per (link, matching event) pair: a joined row occurs as many
   * times as its link occurs among the links times the number of times its
   * event occurs among the events, and never when the keys differ.
   */
  lemma {:induction false} InnerMergeMultiplicity(links: seq<ImpactLink>, events: seq<EventColumns>, link: ImpactLink, event: EventColumns)
    ensures multiset(InnerMerge(links, events))[JoinedRow(link, event)]
         == if event.recordId == link.parentId then multiset(links)[link] * multiset(events)[event] else 0
  {
    if links != [] {
      var tail, row := links[1..], JoinedRow(link, event);
      InnerMergeMultiplicity(tail, events, link, event);
      InnerMergeCons(links, events);
      MultisetHead(links, link);
      LinkRowsCount(links[0], events, link, event);
      Combine(event.recordId == link.parentId, multiset(InnerMerge(links, events))[row],
        multiset(LinkRows(links[0], events))[row], multiset(InnerMerge(tail, events))[row],
        if links[0] == link then 1 else 0, multiset(tail)[link], multiset(events)[event]);
    }
  }

  /** The merge of a non-empty link table starts with the rows of its first link. */
  lemma InnerMergeCons(links: seq<ImpactLink>, events: seq<EventColumns>)
    requires links != []
    ensures InnerMerge(links, events) == LinkRows(links[0], events) + InnerMerge(links[1..], events)
  {
  }

  /** The occurrences of `x` in a non-empty sequence: the head's and the tail's. */
  lemma MultisetHead<T>(s: seq<T>, x: T)
    requires s != []
    ensures multiset(s)[x] == (if s[0] == x then 1 else 0) + multiset(s[1..])[x]
  {
    assert s == [s[0]] + s[1..];
  }

  lemma Combine(matches: bool, total: nat, H: nat, T: nat, h: nat, m: nat, e: nat)
    requires total == H + T
    requires H == (if matches then h * e else 0) && T == (if matches then m * e else 0)
    ensures total == if matches then (h + m) * e else 0
  {
  }

  /** The rows of link `l` hold a pair once per occurrence of its event when `l` is the pair's link and the keys agree. */
  lemma LinkRowsCount(l: ImpactLink, events: seq<EventColumns>, link: ImpactLink, event: EventColumns)
    ensures multiset(LinkRows(l, events))[JoinedRow(link, event)]
         == if l == link && event.recordId == link.parentId then multiset(events)[event] else 0
  {
    var matched := KeyMatches(events, l.parentId);
    KeyMatchesCount(events, l.parentId, event);
    PairCount(l, matched, JoinedRow(link, event));
  }

  /** Pairing a link with each of some events holds a given pair as often as its event occurs, when the link is its own. */
  lemma {:induction false} PairCount(l: ImpactLink, matched: seq<EventColumns>, row: JoinedRow)
    ensures multiset(seq(|matched|, k requires 0 <= k < |matched| => JoinedRow(l, matched[k])))[row]
         == if row.link == l then multiset(matched)[row.event] else 0
  {
    if matched != [] {
      var rows := seq(|matched|, k requires 0 <= k < |matched| => JoinedRow(l, matched[k]));
      var rest := seq(|matched| - 1, k requires 0 <= k < |matched| - 1 => JoinedRow(l, matched[1..][k]));
      PairCount(l, matched[1..], row);
      assert rows == [JoinedRow(l, matched[0])] + rest;
      assert matched == [matched[0]] + matched[1..];
    }
  }

  /** Projecting stacked tables stacks the projections: event rows keep their table order. */
  lemma {:induction false} EventsAppend(a: seq<Record>, b: seq<Record>)
    ensures Events(a + b) == Events(a) + Events(b)
  {
    if a == [] {
      assert a + b == b;
    } else {
      var head := if IsEvent(a[0]) then [Project(a[0])] else [];
      assert (a + b)[0] == a[0];
      assert (a + b)[1..] == a[1..] + b;
      EventsAppend(a[1..], b);
      assert Events(a + b) == head + Events(a[1..] + b);
      assert Events(a) == head + Events(a[1..]);
    }
  }

  /**
   * A row adds its projection to the event table, at its own position,
   * exactly when it is an event; every event row contributes one entry.
   */
  lemma EventsInsert(pre: seq<Record>, r: Record, post: seq<Record>)
    ensures Events(pre + [r] + post) == Events(pre) + (if IsEvent(r) then [Project(r)] else []) + Events(post)
    ensures Events(pre + post) == Events(pre) + Events(post)
  {
    EventsAppend(pre + [r], post);
    EventsAppend(pre, [r]);
    EventsAppend(pre, post);
    assert Events([r]) == (if IsEvent(r) then [Project(r)] else []) + Events([]);
  }

  /** Adding a row that is not an event leaves the event projection unchanged. */
  lemma EventsIgnoreNonEvents(pre: seq<Record>, r: Record, post: seq<Record>)
    requires !IsEvent(r)
    ensures Events(pre + [r] + post) == Events(pre + post)
  {
    EventsInsert(pre, r, post);
  }

  /** The event rows of the table that project to `e`. */
  function ProjectsTo(e: EventColumns): Record -> bool {
    (r: Record) => IsEvent(r) && Project(r) == e
  }

  /** A projected event occurs once per event row of the table it comes from. */
  lemma {:induction false} EventsMultiplicity(records: seq<Record>, e: EventColumns)
    ensures multiset(Events(records))[e] == |Filter(records, ProjectsTo(e))|
  {
    if records != [] {
      EventsMultiplicity(records[1..], e);
      var head := if IsEvent(records[0]) then [Project(records[0])] else [];
      assert Events(records) == head + Events(records[1..]);
      assert Filter(records, ProjectsTo(e)) == (if ProjectsTo(e)(records[0]) then [records[0]] else []) + Filter(records[1..], ProjectsTo(e));
    }
  }

  /**
   * Back on the table: a link with a matching key is paired with an event
   * once per event row projecting to it, times the link's occurrences.
   */
  lemma MergeRowsPerEventRow(links: seq<ImpactLink>, records: seq<Record>, link: ImpactLink, e: EventColumns)
    ensures multiset(InnerMerge(links, Events(records)))[JoinedRow(link, e)]
         == if e.recordId == link.parentId then multiset(links)[link] * |Filter(records, ProjectsTo(e))| else 0
  {
    InnerMergeMultiplicity(links, Events(records), link, e);
    EventsMultiplicity(records, e);
  }

  /** No two event rows share a `record_id`. */
  predicate KeysUnique(events: seq<EventColumns>) {
    forall i, j :: 0 <= i < j < |events| ==> events[i].recordId != events[j].recordId
  }

  /** The link finds an event to join: `parent_id` is one of the events' `record_id`s. */
  function Resolvable(events: seq<EventColumns>): ImpactLink -> bool {
    (l: ImpactLink) => exists i :: 0 <= i < |events| && events[i].recordId == l.parentId
  }

  /** A key no event carries matches nothing. */
  lemma UnmatchedKey(events: seq<EventColumns>, key: Option<string>)
    requires forall i :: 0 <= i < |events| ==> events[i].recordId != key
    ensures KeyMatches(events, key) == []
  {
    FilterEmpty(events, HasKey(key));
  }

  /** An orphan link, whose `parent_id` is no event's `record_id`, contributes no row wherever it stands. */
  lemma OrphanLinkDropped(pre: seq<ImpactLink>, link: ImpactLink, post: seq<ImpactLink>, events: seq<EventColumns>)
    requires !Resolvable(events)(link)
    ensures InnerMerge(pre + [link] + post, events) == InnerMerge(pre + post, events)
  {
    assert InnerMerge([link], events) == [] by {
      UnmatchedKey(events, link.parentId);
      InnerMergeCons([link], events);
      assert [link][1..] == [];
    }
    InnerMergeAppend(pre + [link], post, events);
    InnerMergeAppend(pre, [link], events);
    InnerMergeAppend(pre, post, events);
  }

  /** The `parent_id` side of the merged rows: the link each row came from. */
  function LinksOf(rows: seq<JoinedRow>): (links: seq<ImpactLink>)
    ensures |links| == |rows|
  {
    seq(|rows|, k requires 0 <= k < |rows| => rows[k].link)
  }

  /** With unique event keys a key matches at most one event, and one exactly when some event has it. */
  lemma {:induction false} UniqueKeyMatch(events: seq<EventColumns>, key: Option<string>)
    requires KeysUnique(events)
    ensures |KeyMatches(events, key)| == if exists i :: 0 <= i < |events| && events[i].recordId == key then 1 else 0
  {
    if events != [] {
      var tail := events[1..];
      assert KeysUnique(tail);
      UniqueKeyMatch(tail, key);
      assert forall i :: 0 < i < |events| ==> events[i] == tail[i - 1];
      if events[0].recordId == key {
        assert !exists i :: 0 <= i < |tail| && tail[i].recordId == key by {
          forall i | 0 <= i < |tail| ensures tail[i].recordId != key {
            assert events[i + 1] == tail[i];
          }
        }
      }
    }
  }

  /**
   * When event keys are unique, the merge keeps exactly the links that
   * resolve, each once and in their own order; orphan links are dropped.
   */
  lemma {:induction false} UniqueKeysMergeKeepsResolvableLinks(links: seq<ImpactLink>, events: seq<EventColumns>)
    requires KeysUnique(events)
    ensures LinksOf(InnerMerge(links, events)) == Filter(links, Resolvable(events))
  {
    if links != [] {
      var head, tail := LinkRows(links[0], events), links[1..];
      var p := Resolvable(events);
      UniqueKeysMergeKeepsResolvableLinks(tail, events);
      UniqueKeyMatch(events, links[0].parentId);
      assert InnerMerge(links, events) == head + InnerMerge(tail, events);
      LinksOfAppend(head, InnerMerge(tail, events));
      assert Filter(links, p) == (if p(links[0]) then [links[0]] else []) + Filter(tail, p);
      assert LinksOf(head) == if p(links[0]) then [links[0]] else [];
    }
  }

  /** Stacking merged rows stacks their links. */
  lemma LinksOfAppend(a: seq<JoinedRow>, b: seq<JoinedRow>)
    ensures LinksOf(a + b) == LinksOf(a) + LinksOf(b)
  {
  }

  /**
   * With unique event keys the merge is never longer than the link table,
   * and strictly shorter as soon as one link is an orphan.
   */
  lemma UniqueKeysMergeLength(links: seq<ImpactLink>, events: seq<EventColumns>)
    requires KeysUnique(events)
    ensures |InnerMerge(links, events)| <= |links|
    ensures (exists i :: 0 <= i < |links| && !Resolvable(events)(links[i])) ==> |InnerMerge(links, events)| < |links|
  {
    UniqueKeysMergeKeepsResolvableLinks(links, events);
    if exists i :: 0 <= i < |links| && !Resolvable(events)(links[i]) {
      var i :| 0 <= i < |links| && !Resolvable(events)(links[i]);
      FilterDropsRejected(links, Resolvable(events), i);
    }
  }

  // ---- column naming of the merged table ----

  /** The columns taken from the event side. */
  const EventColumnNames: seq<string> := ["record_id", "indicator", "notes"]

  /** The `suffixes=(left, right)` argument of `merge`. */
  datatype Suffixes = Suffixes(left: string, right: string)

  /** The suffixes of `explore_impact_mechanics` (src/data_explore.py line 36). */
  const ExploreSuffixes := Suffixes("_link", "_event")

  /** The suffixes of `analyze_impact_links` (src/data_explore.py line 83). */
  const AnalyzeSuffixes := Suffixes("_target", "_source_event")

  /** Why pandas refuses to build the merged column labels. */
  datatype MergeFailure =
    | OverlapWithoutSuffix  // ValueError: columns overlap but no suffix specified
    | DuplicateColumns      // MergeError: the suffixes create duplicate columns
    | MissingJoinKey        // KeyError: the link table has no `parent_id` column

  /** The column labels both sides share. */
  function Overlap(left: seq<string>, right: seq<string>): set<string> {
    set c | c in left && c in right
  }

  /** One side's labels with `suffix` appended to every shared label. */
  function Renamed(cols: seq<string>, shared: set<string>, suffix: string): (r: seq<string>)
    ensures |r| == |cols|
  {
    seq(|cols|, i requires 0 <= i < |cols| => if cols[i] in shared then cols[i] + suffix else cols[i])
  }

  /** Renaming made some label equal an earlier one although its original label was new. */
  predicate NewDuplicate(original: seq<string>, renamed: seq<string>)
    requires |original| == |renamed|
  {
    exists i, j :: 0 <= j < i < |renamed| && renamed[j] == renamed[i] && forall k :: 0 <= k < i ==> original[k] != original[i]
  }

  /**
   * The labels of the merged table (the link columns, then the event
   * columns), disambiguated as `merge` does: a label on both sides gets
   * the left suffix on the link side and the right suffix on the event
   * side; other labels are kept. It fails when labels overlap and both
   * suffixes are empty, or when suffixing creates a duplicate label.
   */
  function MergedColumns(linkColumns: seq<string>, suffixes: Suffixes): (r: Result<seq<string>, MergeFailure>)
    ensures r != Err(MissingJoinKey)
    ensures Overlap(linkColumns, EventColumnNames) == {} ==> r == Ok(linkColumns + EventColumnNames)
    ensures r == Err(OverlapWithoutSuffix) <==>
      Overlap(linkColumns, EventColumnNames) != {} && suffixes.left == "" && suffixes.right == ""
    ensures r == Err(DuplicateColumns) <==>
      var shared := Overlap(linkColumns, EventColumnNames);
      shared != {} && !(suffixes.left == "" && suffixes.right == "") &&
      (NewDuplicate(linkColumns, Renamed(linkColumns, shared, suffixes.left)) ||
       NewDuplicate(EventColumnNames, Renamed(EventColumnNames, shared, suffixes.right)))
    ensures r.Ok? ==> |r.value| == |linkColumns| + |EventColumnNames|
    ensures r.Ok? ==> forall i :: 0 <= i < |linkColumns| ==>
      r.value[i] == if linkColumns[i] in EventColumnNames then linkColumns[i] + suffixes.left else linkColumns[i]
    ensures r.Ok? ==> forall i :: 0 <= i < |EventColumnNames| ==>
      r.value[|linkColumns| + i] == if EventColumnNames[i] in linkColumns then EventColumnNames[i] + suffixes.right else EventColumnNames[i]
    ensures r.Ok? && Distinct(linkColumns) ==> Distinct(r.value[..|linkColumns|]) && Distinct(r.value[|linkColumns|..])
  {
    var shared := Overlap(linkColumns, EventColumnNames);
    if shared == {} then
      DisjointLabels(linkColumns);
      EventColumnNamesDistinct();
      assert (linkColumns + EventColumnNames)[..|linkColumns|] == linkColumns;
      assert (linkColumns + EventColumnNames)[|linkColumns|..] == EventColumnNames;
      Ok(linkColumns + EventColumnNames)
    else if suffixes.left == "" && suffixes.right == "" then
      Err(OverlapWithoutSuffix)
    else
      var left := Renamed(linkColumns, shared, suffixes.left);
      var right := Renamed(EventColumnNames, shared, suffixes.right);
      if NewDuplicate(linkColumns, left) || NewDuplicate(EventColumnNames, right) then
        Err(DuplicateColumns)
      else
        NoNewDuplicateKeepsDistinct(linkColumns, left);
        EventColumnNamesDistinct();
        NoNewDuplicateKeepsDistinct(EventColumnNames, right);
        assert (left + right)[..|linkColumns|] == left;
        assert (left + right)[|linkColumns|..] == right;
        Ok(left + right)
  }

  /** Distinct labels after renaming never hold a new duplicate. */
  lemma DistinctNoNewDuplicate(original: seq<string>, renamed: seq<string>)
    requires |original| == |renamed| && Distinct(renamed)
    ensures !NewDuplicate(original, renamed)
  {
  }

  /** The labels of the link fields the model carries. */
  const LinkColumnNames: seq<string> := ["record_id", "parent_id", "indicator", "impact_magnitude"]

  /** `record_id` and `indicator` are on both sides; `parent_id`, `impact_magnitude` and `notes` on one only. */
  lemma LinkEventLabels()
    ensures LinkColumnNames[0] in EventColumnNames && LinkColumnNames[1] !in EventColumnNames
    ensures LinkColumnNames[2] in EventColumnNames && LinkColumnNames[3] !in EventColumnNames
    ensures EventColumnNames[0] in LinkColumnNames && EventColumnNames[1] in LinkColumnNames
    ensures EventColumnNames[2] !in LinkColumnNames
  {
    var l, e := LinkColumnNames, EventColumnNames;
    assert l[0] == e[0] && l[2] == e[1];
    assert l[0][0] == 'r' && l[1][0] == 'p' && l[2][0] == 'i' && l[2][1] == 'n' && l[3][0] == 'i' && l[3][1] == 'm';
    assert e[0][0] == 'r' && e[1][0] == 'i' && e[1][1] == 'n' && e[2][0] == 'n';
  }

  /** Labels whose first two characters differ stay distinct however they are renamed. */
  lemma RenamedKeepsPrefixes(cols: seq<string>, shared: set<string>, suffix: string)
    requires forall i :: 0 <= i < |cols| ==> |cols[i]| >= 2
    requires forall i, j :: 0 <= i < j < |cols| ==> cols[i][..2] != cols[j][..2]
    ensures Distinct(Renamed(cols, shared, suffix))
  {
    var renamed := Renamed(cols, shared, suffix);
    forall i, j | 0 <= i < j < |cols| ensures renamed[i] != renamed[j] {
      assert renamed[i][..2] == cols[i][..2];
      assert renamed[j][..2] == cols[j][..2];
    }
  }

  /** Renaming with any suffixes keeps the labels of each side distinct. */
  lemma LinkRenamingsDistinct(suffixes: Suffixes)
    ensures var shared := Overlap(LinkColumnNames, EventColumnNames);
      !NewDuplicate(LinkColumnNames, Renamed(LinkColumnNames, shared, suffixes.left)) &&
      !NewDuplicate(EventColumnNames, Renamed(EventColumnNames, shared, suffixes.right))
  {
    var shared := Overlap(LinkColumnNames, EventColumnNames);
    var l, e := LinkColumnNames, EventColumnNames;
    assert l[0][..2] == "re" && l[1][..2] == "pa" && l[2][..2] == "in" && l[3][..2] == "im";
    assert e[0][..2] == "re" && e[1][..2] == "in" && e[2][..2] == "no";
    RenamedKeepsPrefixes(l, shared, suffixes.left);
    RenamedKeepsPrefixes(e, shared, suffixes.right);
    DistinctNoNewDuplicate(l, Renamed(l, shared, suffixes.left));
    DistinctNoNewDuplicate(e, Renamed(e, shared, suffixes.right));
  }

  /**
   * With any suffixes that are not both empty, a link table with these labels
   * merges: the shared `record_id` and `indicator` take the left suffix on
   * the link side and the right suffix on the event side; `parent_id`,
   * `impact_magnitude` and `notes` are kept.
   */
  lemma LinkColumnsMerge(suffixes: Suffixes)
    requires !(suffixes.left == "" && suffixes.right == "")
    ensures MergedColumns(LinkColumnNames, suffixes) == Ok([
      "record_id" + suffixes.left, "parent_id", "indicator" + suffixes.left, "impact_magnitude",
      "record_id" + suffixes.right, "indicator" + suffixes.right, "notes"])
  {
    LinkEventLabels();
    LinkRenamingsDistinct(suffixes);
    var r := MergedColumns(LinkColumnNames, suffixes);
    assert LinkColumnNames[0] in Overlap(LinkColumnNames, EventColumnNames);
    assert r.Ok?;
    var l, e := LinkColumnNames, EventColumnNames;
    assert r.value[0] == l[0] + suffixes.left && r.value[1] == l[1];
    assert r.value[2] == l[2] + suffixes.left && r.value[3] == l[3];
    assert r.value[4] == e[0] + suffixes.right && r.value[5] == e[1] + suffixes.right && r.value[6] == e[2];
    SevenLabels(r.value, l[0] + suffixes.left, l[1], l[2] + suffixes.left, l[3], e[0] + suffixes.right, e[1] + suffixes.right, e[2]);
  }

  /** Seven labels given one by one. */
  lemma SevenLabels(s: seq<string>, a: string, b: string, c: string, d: string, e: string, f: string, g: string)
    requires |s| == 7 && s[0] == a && s[1] == b && s[2] == c && s[3] == d && s[4] == e && s[5] == f && s[6] == g
    ensures s == [a, b, c, d, e, f, g]
  {
  }

  /** `explore_impact_mechanics` (suffixes `_link`, `_event`) on a link table with these labels. */
  lemma ExploreColumns()
    ensures MergedColumns(LinkColumnNames, ExploreSuffixes) == Ok([
      "record_id_link", "parent_id", "indicator_link", "impact_magnitude",
      "record_id_event", "indicator_event", "notes"])
  {
    LinkColumnsMerge(ExploreSuffixes);
    ExploreLabels(ExploreSuffixes);
  }

  /** `analyze_impact_links` (suffixes `_target`, `_source_event`) on a link table with these labels. */
  lemma AnalyzeColumns()
    ensures MergedColumns(LinkColumnNames, AnalyzeSuffixes) == Ok([
      "record_id_target", "parent_id", "indicator_target", "impact_magnitude",
      "record_id_source_event", "indicator_source_event", "notes"])
  {
    LinkColumnsMerge(AnalyzeSuffixes);
    AnalyzeLabels(AnalyzeSuffixes);
  }

  /** The suffixed labels of `explore_impact_mechanics` spelled out. */
  lemma ExploreLabels(suffixes: Suffixes)
    requires suffixes == ExploreSuffixes
    ensures ["record_id" + suffixes.left, "parent_id", "indicator" + suffixes.left, "impact_magnitude",
             "record_id" + suffixes.right, "indicator" + suffixes.right, "notes"]
         == ["record_id_link", "parent_id", "indicator_link", "impact_magnitude", "record_id_event", "indicator_event", "notes"]
  {
    assert suffixes.left == "_link" && suffixes.right == "_event";
    assert "record_id" + "_link" == "record_id_link" && "indicator" + "_link" == "indicator_link";
    assert "record_id" + "_event" == "record_id_event" && "indicator" + "_event" == "indicator_event";
  }

  /** The suffixed labels of `analyze_impact_links` spelled out. */
  lemma AnalyzeLabels(suffixes: Suffixes)
    requires suffixes == AnalyzeSuffixes
    ensures ["record_id" + suffixes.left, "parent_id", "indicator" + suffixes.left, "impact_magnitude",
             "record_id" + suffixes.right, "indicator" + suffixes.right, "notes"]
         == ["record_id_target", "parent_id", "indicator_target", "impact_magnitude",
             "record_id_source_event", "indicator_source_event", "notes"]
  {
    assert suffixes.left == "_target" && suffixes.right == "_source_event";
    assert "record_id" + "_target" == "record_id_target" && "indicator" + "_target" == "indicator_target";
    assert "record_id" + "_source_event" == "record_id_source_event" && "indicator" + "_source_event" == "indicator_source_event";
  }

  /** The three event labels differ (they start with different letters). */
  lemma EventColumnNamesDistinct()
    ensures Distinct(EventColumnNames)
  {
    var n := EventColumnNames;
    assert n[0][0] == 'r' && n[1][0] == 'i' && n[2][0] == 'n';
  }

  /** Renaming that adds no new duplicate keeps distinct labels distinct. */
  lemma NoNewDuplicateKeepsDistinct(original: seq<string>, renamed: seq<string>)
    requires |original| == |renamed| && !NewDuplicate(original, renamed)
    ensures Distinct(original) ==> Distinct(renamed)
  {
    if Distinct(original) {
      forall j, i | 0 <= j < i < |renamed| ensures renamed[j] != renamed[i] {
        assert forall k :: 0 <= k < i ==> original[k] != original[i];
      }
    }
  }

  /** Without a shared label no label on either side is found on the other. */
  lemma DisjointLabels(linkColumns: seq<string>)
    requires Overlap(linkColumns, EventColumnNames) == {}
    ensures forall i :: 0 <= i < |linkColumns| ==> linkColumns[i] !in EventColumnNames
    ensures forall i :: 0 <= i < |EventColumnNames| ==> EventColumnNames[i] !in linkColumns
  {
    var shared := Overlap(linkColumns, EventColumnNames);
    forall i | 0 <= i < |linkColumns| ensures linkColumns[i] !in EventColumnNames {
      var c := linkColumns[i];
      assert c in EventColumnNames ==> c in shared;
    }
    forall i | 0 <= i < |EventColumnNames| ensures EventColumnNames[i] !in linkColumns {
      var c := EventColumnNames[i];
      assert c in linkColumns ==> c in shared;
    }
  }

  /** The merged table: its column labels and its rows. */
  datatype Merged = Merged(columns: seq<string>, rows: seq<JoinedRow>)

  /**
   * `explore_impact_mechanics` / `analyze_impact_links`: keep the event rows,
   * project them, and merge the impact links with them. The join key is
   * looked up first, so a link table without a `parent_id` column fails
   * before any label is suffixed. A row of the result pairs a link with an
   * event row of the table whose `record_id` equals the link's `parent_id`,
   * and every such pair is present; non-event rows and orphan links
   * contribute nothing.
   */
  function ResolveImpacts(linkColumns: seq<string>, links: seq<ImpactLink>, records: seq<Record>, suffixes: Suffixes)
    : (r: Result<Merged, MergeFailure>)
    ensures r == Err(MissingJoinKey) <==> "parent_id" !in linkColumns
    ensures r.Ok? <==> "parent_id" in linkColumns && MergedColumns(linkColumns, suffixes).Ok?
    ensures "parent_id" in linkColumns && MergedColumns(linkColumns, suffixes).Err? ==>
      r == Err(MergedColumns(linkColumns, suffixes).error)
    ensures r.Ok? ==> r.value.columns == MergedColumns(linkColumns, suffixes).value
    ensures r.Ok? ==> r.value.rows == InnerMerge(links, Events(records))
    ensures r.Ok? ==> forall row :: row in r.value.rows <==>
      row.link in links && row.event.recordId == row.link.parentId &&
      exists i :: 0 <= i < |records| && IsEvent(records[i]) &&
        row.event == Project(records[i])
  {
    if "parent_id" !in linkColumns then
      Err(MissingJoinKey)
    else
      InnerMergeMembers(links, Events(records));
      match MergedColumns(linkColumns, suffixes)
      case Err(e) => Err(e)
      case Ok(columns) => Ok(Merged(columns, InnerMerge(links, Events(records))))
  }

  /** The link table the code reads always merges, whatever non-empty suffixes are chosen. */
  lemma LinkTableResolves(links: seq<ImpactLink>, records: seq<Record>, suffixes: Suffixes)
    requires !(suffixes.left == "" && suffixes.right == "")
    ensures ResolveImpacts(LinkColumnNames, links, records, suffixes).Ok?
  {
    LinkColumnsMerge(suffixes);
    assert LinkColumnNames[1] == "parent_id";
  }

  /**
   * The worked example: three events with ids 1, 2, 3 and links to 1, 1
   * and 9 give exactly two rows, both for event 1; the link to 9 is dropped.
   */
  lemma WorkedExample()
    ensures
      var row := JoinedRow(LinkTo("1"), EventColumns(Some("1"), None, None));
      InnerMerge([LinkTo("1"), LinkTo("1"), LinkTo("9")], Events([EventRecord("1"), EventRecord("2"), EventRecord("3")])) == [row, row]
  {
    ExampleEvents();
    ExampleMerge();
  }

  lemma ExampleEvents()
    ensures Events([EventRecord("1"), EventRecord("2"), EventRecord("3")])
         == [EventColumns(Some("1"), None, None), EventColumns(Some("2"), None, None), EventColumns(Some("3"), None, None)]
  {
    var table := [EventRecord("1"), EventRecord("2"), EventRecord("3")];
    assert table[2..] == [EventRecord("3")] && table[2..][1..] == [];
    assert table[1..][1..] == table[2..];
  }

  lemma ExampleMerge()
    ensures
      var e1 := EventColumns(Some("1"), None, None);
      InnerMerge([LinkTo("1"), LinkTo("1"), LinkTo("9")], [e1, EventColumns(Some("2"), None, None), EventColumns(Some("3"), None, None)])
        == [JoinedRow(LinkTo("1"), e1), JoinedRow(LinkTo("1"), e1)]
  {
    var e1 := EventColumns(Some("1"), None, None);
    var events := [e1, EventColumns(Some("2"), None, None), EventColumns(Some("3"), None, None)];
    assert KeyMatches(events[2..], Some("1")) == [];
    assert KeyMatches(events[1..], Some("1")) == [];
    assert KeyMatches(events, Some("1")) == [e1];
    assert KeyMatches(events[2..], Some("9")) == [];
    assert KeyMatches(events[1..], Some("9")) == [];
    assert KeyMatches(events, Some("9")) == [];
    var links := [LinkTo("1"), LinkTo("1"), LinkTo("9")];
    var row := JoinedRow(LinkTo("1"), e1);
    assert LinkRows(LinkTo("1"), events) == [row];
    assert LinkRows(LinkTo("9"), events) == [];
    assert InnerMerge(links[2..], events) == [];
    assert InnerMerge(links[1..], events) == [row];
  }

  /** An event row with the given id and no other cells. */
  function EventRecord(id: string): Record {
    Record(Some(id), Some("event"), None, None, None, None, None, None, None, None, None)
  }

  /** An impact link to the given parent id with no other cells. */
  function LinkTo(parent: string): ImpactLink {
    ImpactLink(None, Some(parent), None, None)
  }
}

=== FILE: records.dfy ===
/**
 * The two in-memory tables the analysis runs over (the unified
 * indicator/event table and the impact-links table) and the reference
 * code list. Every nullable spreadsheet cell is an `Option`.
 */
module Records {
  import opened Wrappers

  /** A calendar date, already parsed into an ordered day number. */
  type Date = int

  /** One row of the unified indicator/event table. */
  datatype Record = Record(
    recordId: Option<string>,
    recordType: Option<string>,
    pillar: Option<string>,
    indicator: Option<string>,
    indicatorCode: Option<string>,
    valueNumeric: Option<real>,
    observationDate: Option<Date>,
    unit: Option<string>,
    notes: Option<string>,
    sourceType: Option<string>,
    confidence: Option<string>)

  /** One row of the impact-links table; `parentId` refers to the `recordId` of an event. */
  datatype ImpactLink = ImpactLink(
    recordId: Option<string>,
    parentId: Option<string>,
    indicator: Option<string>,
    impactMagnitude: Option<real>)

  /** One row of the reference-code table: a permitted `code` for the column named `field`. */
  datatype ReferenceCode = ReferenceCode(field: Option<string>, code: Option<string>)

  /** `record_type == 'event'`; a missing record type compares unequal. */
  predicate IsEvent(r: Record) {
    r.recordType == Some("event")
  }

  /** `record_type == 'observation'`. */
  predicate IsObservation(r: Record) {
    r.recordType == Some("observation")
  }
}

=== FILE: seqs.dfy ===
/** Sequence operations the table functions are built from. */
module Seqs {

  /** No element occurs twice. */
  predicate Distinct<T(==)>(s: seq<T>) {
    forall i, j :: 0 <= i < j < |s| ==> s[i] != s[j]
  }

  /**
   * The elements of `s` that satisfy `p`, in their original order: a
   * boolean-mask selection `df[mask]`.
   */
  function Filter<T>(s: seq<T>, p: T -> bool): (r: seq<T>)
    ensures |r| <= |s|
    ensures forall i :: 0 <= i < |r| ==> p(r[i])
  {
    if s == [] then []
    else (if p(s[0]) then [s[0]] else []) + Filter(s[1..], p)
  }

  /** Every element is selected exactly as often as it occurs when it satisfies the mask, and never otherwise. */
  lemma {:induction false} FilterMultiplicity<T>(s: seq<T>, p: T -> bool, x: T)
    ensures multiset(Filter(s, p))[x] == if p(x) then multiset(s)[x] else 0
  {
    if s != [] {
      FilterMultiplicity(s[1..], p, x);
      assert s == [s[0]] + s[1..];
    }
  }

  /** Selecting rows commutes with stacking tables: the mask is applied row by row. */
  lemma {:induction false} FilterAppend<T>(a: seq<T>, b: seq<T>, p: T -> bool)
    ensures Filter(a + b, p) == Filter(a, p) + Filter(b, p)
  {
    if a == [] {
      assert a + b == b;
    } else {
      assert (a + b)[0] == a[0];
      assert (a + b)[1..] == a[1..] + b;
      FilterAppend(a[1..], b, p);
    }
  }

  /** The number of selected rows changes by one exactly when the inserted row is selected. */
  lemma {:induction false} FilterInsertCount<T>(pre: seq<T>, x: T, post: seq<T>, p: T -> bool)
    ensures |Filter(pre + [x] + post, p)| == |Filter(pre + post, p)| + (if p(x) then 1 else 0)
  {
    FilterAppend(pre + [x], post, p);
    FilterAppend(pre, [x], p);
    FilterAppend(pre, post, p);
    assert Filter([x], p) == (if p(x) then [x] else []) + Filter([], p);
  }

  /** Every selected element comes from the table. */
  lemma FilterSource<T>(s: seq<T>, p: T -> bool, k: nat)
    requires k < |Filter(s, p)|
    ensures exists i :: 0 <= i < |s| && s[i] == Filter(s, p)[k]
  {
    var x := Filter(s, p)[k];
    FilterMultiplicity(s, p, x);
    assert x in multiset(Filter(s, p));
    assert x in s;
  }

  /** The selection keeps table order: two selected elements come from rows in the same order. */
  lemma {:induction false} FilterOrder<T>(s: seq<T>, p: T -> bool, k: nat, k': nat)
    requires k < k' < |Filter(s, p)|
    ensures exists i, i' :: 0 <= i < i' < |s| && s[i] == Filter(s, p)[k] && s[i'] == Filter(s, p)[k']
  {
    var f, tail := Filter(s, p), s[1..];
    var ft := Filter(tail, p);
    if p(s[0]) {
      assert f == [s[0]] + ft;
      if k == 0 {
        FilterSource(tail, p, k' - 1);
        var j :| 0 <= j < |tail| && tail[j] == ft[k' - 1];
        assert s[0] == f[k] && s[j + 1] == f[k'];
      } else {
        FilterOrder(tail, p, k - 1, k' - 1);
        var i, i' :| 0 <= i < i' < |tail| && tail[i] == ft[k - 1] && tail[i'] == ft[k' - 1];
        assert s[i + 1] == f[k] && s[i' + 1] == f[k'];
      }
    } else {
      assert f == ft;
      FilterOrder(tail, p, k, k');
      var i, i' :| 0 <= i < i' < |tail| && tail[i] == ft[k] && tail[i'] == ft[k'];
      assert s[i + 1] == f[k] && s[i' + 1] == f[k'];
    }
  }

  /** The selection is empty exactly when no row satisfies the mask. */
  lemma {:induction false} FilterEmpty<T>(s: seq<T>, p: T -> bool)
    ensures Filter(s, p) == [] <==> forall i :: 0 <= i < |s| ==> !p(s[i])
  {
    if s != [] {
      FilterEmpty(s[1..], p);
      assert forall i :: 0 < i < |s| ==> s[i] == s[1..][i - 1];
    }
  }

  /** Some row fails the mask, so the selection is strictly shorter than the table. */
  lemma {:induction false} FilterDropsRejected<T>(s: seq<T>, p: T -> bool, i: nat)
    requires i < |s| && !p(s[i])
    ensures |Filter(s, p)| < |s|
  {
    if i > 0 {
      FilterDropsRejected(s[1..], p, i - 1);
    }
  }

  /** The index of the first occurrence of `x` in `s`. */
  function FirstIndex<T(==)>(s: seq<T>, x: T): (k: nat)
    requires x in s
    ensures k < |s| && s[k] == x
    ensures forall j :: 0 <= j < k ==> s[j] != x
  {
    if s[0] == x then 0 else 1 + FirstIndex(s[1..], x)
  }

  /**
   * The distinct elements of `s` in order of first appearance, as
   * `Series.unique()` returns them.
   */
  function Unique<T(==,!new)>(s: seq<T>): (u: seq<T>)
    ensures Distinct(u)
    ensures forall x :: x in u <==> x in s
    ensures |u| <= |s|
    ensures u == [] <==> s == []
  {
    if s == [] then []
    else
      var init, last := s[..|s| - 1], s[|s| - 1];
      assert s == init + [last];
      var u := Unique(init);
      if last in u then u else u + [last]
  }

  /** The first occurrence of an element that occurs in a prefix lies in that prefix. */
  lemma {:induction false} FirstIndexPrefix<T>(a: seq<T>, b: seq<T>, x: T)
    requires x in a
    ensures FirstIndex(a + b, x) == FirstIndex(a, x)
  {
    var k, k' := FirstIndex(a + b, x), FirstIndex(a, x);
    assert (a + b)[k'] == x;
    assert k <= k';
    assert (a + b)[k] == a[k];
  }

  /** `Unique` lists the distinct values in the order of their first appearance. */
  lemma {:induction false} UniqueFirstAppearanceOrder<T(!new)>(s: seq<T>)
    ensures forall i, j :: 0 <= i < j < |Unique(s)| ==> FirstIndex(s, Unique(s)[i]) < FirstIndex(s, Unique(s)[j])
  {
    if s != [] {
      var init, last := s[..|s| - 1], s[|s| - 1];
      assert s == init + [last];
      UniqueFirstAppearanceOrder(init);
      var u, u' := Unique(init), Unique(s);
      forall y | y in u ensures FirstIndex(s, y) == FirstIndex(init, y) < |init| {
        FirstIndexPrefix(init, [last], y);
      }
      if last in u {
        assert u' == u;
      } else {
        assert u' == u + [last];
        assert FirstIndex(s, last) == |init| by {
          assert forall k :: 0 <= k < |init| ==> s[k] == init[k];
        }
        forall i, j | 0 <= i < j < |u'| ensures FirstIndex(s, u'[i]) < FirstIndex(s, u'[j]) {
          assert u'[i] == u[i] && u[i] in u;
          if j < |u| {
            assert u'[j] == u[j] && u[j] in u;
          }
        }
      }
    }
  }
}

=== FILE: validation.dfy ===
/**
 * Reference-code validation (`validate_records`) and the count of events
 * that carry no pillar (`summarize_pillars`).
 */
module Validation {
  import opened Wrappers
  import opened Records
  import opened Seqs

  /**
   * `set(ref_df[ref_df['field'] == field]['code'])`. A reference row whose
   * code cell is empty puts the missing marker into the set; pandas'
   * `isin` then matches a missing cell against it.
   */
  function PermittedCodes(reference: seq<ReferenceCode>, field: string): (codes: set<Option<string>>)
    ensures CodesPresent(reference, field) ==> None !in codes
  {
    set i | 0 <= i < |reference| && reference[i].field == Some(field) :: reference[i].code
  }

  /** The reference list gives a real (non-empty-cell) code for every row of `field`. */
  predicate CodesPresent(reference: seq<ReferenceCode>, field: string) {
    forall i :: 0 <= i < |reference| && reference[i].field == Some(field) ==> reference[i].code.Some?
  }

  /** The pillar mask: `~pillar.isin(valid) & pillar.notna()`. */
  function PillarMask(valid: set<Option<string>>): Record -> bool {
    (r: Record) => r.pillar.Some? && r.pillar !in valid
  }

  /** The indicator mask: `~indicator_code.isin(valid)`; no exemption for a missing code. */
  function IndicatorMask(valid: set<Option<string>>): Record -> bool {
    (r: Record) => r.indicatorCode !in valid
  }

  /** The rows whose indicator code is not permitted, in table order. */
  function InvalidIndicatorRows(records: seq<Record>, reference: seq<ReferenceCode>): seq<Record> {
    Filter(records, IndicatorMask(PermittedCodes(reference, "indicator_code")))
  }

  /** The `indicator_code` column of `rows`. */
  function CodesOf(rows: seq<Record>): (codes: seq<Option<string>>)
    ensures |codes| == |rows|
  {
    seq(|rows|, k requires 0 <= k < |rows| => rows[k].indicatorCode)
  }

  /** A code occurs among the offending rows exactly when some row of the table carries it and is not permitted. */
  lemma OffendingCodes(records: seq<Record>, reference: seq<ReferenceCode>)
    ensures forall c :: c in CodesOf(InvalidIndicatorRows(records, reference)) <==>
      exists i :: 0 <= i < |records| && records[i].indicatorCode == c && records[i].indicatorCode !in PermittedCodes(reference, "indicator_code")
  {
    var valid := PermittedCodes(reference, "indicator_code");
    var rows := InvalidIndicatorRows(records, reference);
    var codes := CodesOf(rows);
    forall c | c in codes
      ensures exists i :: 0 <= i < |records| && records[i].indicatorCode == c && records[i].indicatorCode !in valid
    {
      var k :| 0 <= k < |codes| && codes[k] == c;
      var row := rows[k];
      assert IndicatorMask(valid)(row);
      FilterMultiplicity(records, IndicatorMask(valid), row);
      assert multiset(rows)[row] > 0;
      assert row in records;
      var i :| 0 <= i < |records| && records[i] == row;
    }
    forall i | 0 <= i < |records| && records[i].indicatorCode !in valid
      ensures records[i].indicatorCode in codes
    {
      var row := records[i];
      assert IndicatorMask(valid)(row);
      FilterMultiplicity(records, IndicatorMask(valid), row);
      assert multiset(records)[row] > 0;
      assert multiset(rows)[row] > 0;
      var k :| 0 <= k < |rows| && rows[k] == row;
      assert codes[k] == row.indicatorCode;
    }
  }

  /** The dictionary `validate_records` returns. */
  datatype ValidationReport = ValidationReport(
    invalidPillarCount: nat,
    invalidIndicatorCount: nat,
    flaggedIndicatorCodes: seq<Option<string>>)

  /**
   * Checks `pillar` and `indicator_code` against the reference list. The
   * flagged codes are the distinct codes of the offending rows (a missing
   * code included), each listed once, and there are some exactly when some
   * row is offending.
   */
  function ValidateRecords(records: seq<Record>, reference: seq<ReferenceCode>): (report: ValidationReport)
    ensures report.invalidPillarCount <= |records| && report.invalidIndicatorCount <= |records|
    ensures Distinct(report.flaggedIndicatorCodes)
    ensures forall c :: c in report.flaggedIndicatorCodes <==>
      exists i :: 0 <= i < |records| && records[i].indicatorCode == c && records[i].indicatorCode !in PermittedCodes(reference, "indicator_code")
    ensures |report.flaggedIndicatorCodes| <= report.invalidIndicatorCount
    ensures report.flaggedIndicatorCodes == [] <==> report.invalidIndicatorCount == 0
  {
    var invalidPillars := Filter(records, PillarMask(PermittedCodes(reference, "pillar")));
    var invalidIndicators := InvalidIndicatorRows(records, reference);
    OffendingCodes(records, reference);
    ValidationReport(|invalidPillars|, |invalidIndicators|, Unique(CodesOf(invalidIndicators)))
  }

  /** The flagged codes are listed in the order in which they first occur among the offending rows. */
  lemma FlaggedOrder(records: seq<Record>, reference: seq<ReferenceCode>)
    ensures var codes, flagged := CodesOf(InvalidIndicatorRows(records, reference)), ValidateRecords(records, reference).flaggedIndicatorCodes;
      forall i, j :: 0 <= i < j < |flagged| ==> FirstIndex(codes, flagged[i]) < FirstIndex(codes, flagged[j])
  {
    UniqueFirstAppearanceOrder(CodesOf(InvalidIndicatorRows(records, reference)));
  }
  /**
   * A row contributes to `invalid_pillar_count` exactly when its pillar is
   * present and not permitted; a row with a missing pillar never does.
   */
  lemma PillarRowContribution(pre: seq<Record>, r: Record, post: seq<Record>, reference: seq<ReferenceCode>)
    ensures ValidateRecords(pre + [r] + post, reference).invalidPillarCount
         == ValidateRecords(pre + post, reference).invalidPillarCount
            + (if r.pillar.Some? && r.pillar !in PermittedCodes(reference, "pillar") then 1 else 0)
    ensures r.pillar.None? ==>
      ValidateRecords(pre + [r] + post, reference).invalidPillarCount == ValidateRecords(pre + post, reference).invalidPillarCount
  {
    FilterInsertCount(pre, r, post, PillarMask(PermittedCodes(reference, "pillar")));
  }

  /** A row contributes to `invalid_indicator_count` exactly when its code is not permitted. */
  lemma IndicatorRowContribution(pre: seq<Record>, r: Record, post: seq<Record>, reference: seq<ReferenceCode>)
    ensures ValidateRecords(pre + [r] + post, reference).invalidIndicatorCount
         == ValidateRecords(pre + post, reference).invalidIndicatorCount
            + (if r.indicatorCode !in PermittedCodes(reference, "indicator_code") then 1 else 0)
  {
    FilterInsertCount(pre, r, post, IndicatorMask(PermittedCodes(reference, "indicator_code")));
  }

  /**
   * A row without an indicator code always counts as invalid, as long as
   * the reference list gives every indicator code row a real code.
   */
  lemma MissingIndicatorCodeCounts(pre: seq<Record>, r: Record, post: seq<Record>, reference: seq<ReferenceCode>)
    requires r.indicatorCode.None?
    requires CodesPresent(reference, "indicator_code")
    ensures ValidateRecords(pre + [r] + post, reference).invalidIndicatorCount
         == ValidateRecords(pre + post, reference).invalidIndicatorCount + 1
    ensures None in ValidateRecords(pre + [r] + post, reference).flaggedIndicatorCodes
  {
    IndicatorRowContribution(pre, r, post, reference);
    assert (pre + [r] + post)[|pre|] == r;
  }

  /** An event row whose pillar is missing. */
  predicate UnassignedEvent(r: Record) {
    IsEvent(r) && r.pillar.None?
  }

  /** The count `summarize_pillars` reports: event rows with a missing pillar. */
  function SummarizePillars(records: seq<Record>): (n: nat)
    ensures n <= |records|
    ensures n == 0 <==> forall i :: 0 <= i < |records| ==> !(IsEvent(records[i]) && records[i].pillar.None?)
  {
    FilterEmpty(records, UnassignedEvent);
    |Filter(records, UnassignedEvent)|
  }

  /**
   * A row adds one to the pillar summary exactly when it is an event without
   * a pillar; non-event rows never count.
   */
  lemma SummarizePillarsContribution(pre: seq<Record>, r: Record, post: seq<Record>)
    ensures SummarizePillars(pre + [r] + post) == SummarizePillars(pre + post) + (if IsEvent(r) && r.pillar.None? then 1 else 0)
    ensures !IsEvent(r) ==> SummarizePillars(pre + [r] + post) == SummarizePillars(pre + post)
  {
    FilterInsertCount(pre, r, post, UnassignedEvent);
  }
}

=== FILE: wrappers.dfy ===
/** Optional values and results with an error. */
module Wrappers {

  /** A value that may be missing: the model's stand-in for a null / NaN / NaT cell. */
  datatype Option<+T> = None | Some(value: T)

  /** The outcome of an operation that can raise. */
  datatype Result<+R, +E> = Ok(value: R) | Err(error: E)
}
